=== FILE: README.md ===
# Logging interceptor of the WebLogging demo API

The WebLogging demo wraps its service interfaces (`IServiceLayer`, `IWeatherForecast`) in
dynamic proxies whose interceptor, `MethodInterceptor`, writes log lines around every call:
banners, the `LogMessage` attribute's custom message, the arguments, the response or the
exception, the duration, and a "last message in the call hierarchy" summary when the call
is the outermost one. A static thread-local counter, the call depth, tells outermost calls
from nested ones.

This project models, in Dafny, the interceptor's three entry points and the call depth they
share, plus nested proxied calls (the service layer calling the proxied forecast store), and
proves what the log and the depth look like for every path a call can take.

- `invocation.dfy` — `Optional` and `Invocations`: what the interceptor learns about a call
  (method and class name, the attribute if present, the return shape, the arguments) and how
  a call ends (`Returned`, `Threw`, or, for task-returning methods, `Faulted` task).
- `log_events.dfy` — `LogEvents`: one constructor per line shape the interceptor writes,
  counting over traces, and the fixed stage order of one call's own lines.
- `interceptor.dfy` — `Interceptor`: `InterceptSynchronous`, `InterceptAsynchronous`,
  `InterceptAsynchronousResult` (the generic `InterceptAsynchronous<TResult>`) and the
  routing by return type. Each takes the depth on entry and what `Proceed()` produced, and
  answers the lines written before and after `Proceed()`, the depth left behind and the
  outcome the caller sees.
- `call_tree.dfy` — `CallTree`: a tree of proxied calls run through the interceptors with
  one shared depth, a reference semantics without proxies, and successive top-level calls
  served by one thread.
- `weather_scenario.dfy` — `WeatherScenario`: the application's own call shapes
  (`GetWeatherForecasts`, `GetWeatherForecastsAsync` over the proxied store).

What the code does, and the model with it:

- With the attribute present, every entry point increments the depth, writes its opening
  lines, runs the real call, writes the result or the exception line, and in `finally` writes
  the duration lines, the summary when the depth it reads is 1, and decrements the depth.
- Without the attribute the interceptor dereferences the missing attribute
  (`logMessageAttribute.Environment`). The synchronous entry point then writes its three banner
  lines and fails with a null-reference exception, before the try block when there are
  arguments (the real call never runs) and inside it otherwise (the real call runs, and the
  catch and finally blocks fail again). The asynchronous entry points fail on their first line:
  nothing is written and the real call never runs. In every case the decrement is never
  reached, so the thread's depth stays raised for good and later outermost calls on that
  thread write no summary line.
- `InterceptAsynchronous` (for `Task`) never awaits the task: a task that faults later is
  handed back untouched, after the success lines and "Response: Task completed." were written.
  `InterceptAsynchronous<TResult>` blocks on the task's result inside its try block, so a fault
  is logged once and rethrown to the caller synchronously.
- The summary is decided by the depth read in `finally`, which is the depth the real call left
  behind (`Step.depth`), not the depth on entry.
- Several lines are written twice in slightly different forms (the duration line, the class
  name, the success line); the model keeps each of them as the code writes it.

The code does not keep structured logging going for a method without the attribute: it fails
with a null-reference exception and leaves the depth one level higher. The `Task` entry point
does not await the task it is handed. The summary test reads the depth before the decrement and
compares it with 1, which marks the outermost call only while the depth is balanced.
`Logging/LogMessageAttribute.cs` declares a single-argument attribute with only `Message`,
while the application applies it with three arguments and the interceptor reads `Application`
and `Environment`; the model gives the attribute the three fields the interceptor reads.

## Model

| member | source | states |
|---|---|---|
| Interceptor.Observed | Logging/MethodInterceptor.cs:241-262 | the caller meets exactly the real call's error or value; only a faulted `Task<TResult>`, whose result is awaited in the try block, turns into a synchronous throw of the same error |
| Interceptor.InterceptSynchronous | Logging/MethodInterceptor.cs:78-143 | with the attribute: the real call runs, the depth ends one below what the real call left, the caller sees the real outcome, one summary line exactly when the depth read in `finally` is 1, one exception line exactly when the real call threw; without it: nothing written after the real call, a null-reference exception, the real call runs exactly when there are no arguments, the increment is never undone |
| Interceptor.InterceptAsynchronous | Logging/MethodInterceptor.cs:145-208 | with the attribute: the same bookkeeping, the exception line only for a synchronous throw; without it: no line, the real call never runs, a null-reference exception, the depth left one higher |
| Interceptor.InterceptAsynchronousResult | Logging/MethodInterceptor.cs:210-281 | with the attribute: the same bookkeeping, a faulted task caught and rethrown; without it: no line, the real call never runs, a null-reference exception, the depth left one higher |
| Interceptor.Intercept | Logging/MethodInterceptor.cs:78-281 | routing by return type: the real call runs exactly when the attribute is present or a synchronous method has no arguments; the bookkeeping holds on every route with the attribute; without it the caller gets a null-reference exception |
| Interceptor.SynchronousProtocol | Logging/MethodInterceptor.cs:94-142 | the whole protocol for a synchronous call: success lines exactly when nothing was thrown, otherwise an exception line showing the thrown error and the tags, the tagged duration line on every path and before any summary line, request lines exactly when there are arguments, showing those arguments, the custom line exactly when the message is non-empty, showing that message and the tags, lines in stage order; response lines exactly for a non-void method that returned, showing the returned value |
| Interceptor.AsynchronousProtocol | Logging/MethodInterceptor.cs:161-207 | the whole protocol for a `Task` method (exception line showing a synchronously thrown error, request lines showing the arguments, custom line showing the message); no response lines; "Task completed" exactly when the real call did not throw synchronously |
| Interceptor.AsynchronousResultProtocol | Logging/MethodInterceptor.cs:226-280 | the whole protocol for a `Task<TResult>` method (exception line showing the thrown or awaited error, request lines showing the arguments, custom line showing the message); response lines exactly when the awaited task produced a value, showing that value |
| Interceptor.InterceptProtocol | Logging/MethodInterceptor.cs:78-281 | the whole protocol, including the exception line's error, the request's arguments and the custom message, holds whichever entry point the return type selects |
| Interceptor.SynchronousWithoutAttribute | Logging/MethodInterceptor.cs:94-104 | without the attribute, the synchronous entry point writes exactly its three banner lines before the real call (no custom and no request line) and nothing after it, on the routing by return type as well |
| Interceptor.OpeningFacts | Logging/MethodInterceptor.cs:94-107 | the opening lines hold no summary or exception line, request lines exactly when there are arguments, one custom line exactly for a non-empty message, all in stage order |
| Interceptor.SyncResultCounts | Logging/MethodInterceptor.cs:109-126 | the try block's lines after `Proceed()` or the catch block's line: one exception line exactly when the real call threw, success lines exactly when it returned, response lines exactly for a non-void method that returned |
| Interceptor.TaskResultCounts | Logging/MethodInterceptor.cs:176-190 | an exception line exactly on a synchronous throw, success lines and "Task completed" otherwise, never a response line |
| Interceptor.TaskOfResultCounts | Logging/MethodInterceptor.cs:241-262 | response, value and success lines exactly when the task produced a value, one exception line otherwise |
| Interceptor.TimingCounts | Logging/MethodInterceptor.cs:129-133 | the `finally` block always writes the tagged duration line and never a summary, exception, success or response line among its first three lines |
| Interceptor.SummaryCounts | Logging/MethodInterceptor.cs:199-204 | the summary line appears exactly once when the depth read is 1 and not otherwise |
| Interceptor.DurationBeforeSummary | Logging/MethodInterceptor.cs:127-139 | when result lines are followed by the `finally` block's lines, the tagged duration line comes before every summary line |
| Interceptor.TaskFrameCloses | Logging/MethodInterceptor.cs:176-207 | the closing lines of the `Task` entry point: summary and exception counts, success and "Task completed" exactly without a synchronous throw, the tagged duration line, written before any summary line, stage order |
| Interceptor.TaskOfFrameCloses | Logging/MethodInterceptor.cs:241-280 | the closing lines of the `Task<TResult>` entry point: summary and exception counts, response exactly on a value, the tagged duration line, written before any summary line, stage order |
| CallTree.Propagated | BusinessLayer/ServiceLayer.cs:29-36 | an implementation hands a nested error on unchanged, in a form its return type allows (only task-returning methods fault a task) |
| CallTree.Direct | BusinessLayer/ServiceLayer.cs:20-36 | the reference semantics without proxies: a call that ends without error ends with its implementation's own result |
| CallTree.Run | Logging/MethodInterceptor.cs:78-281 | a proxied call whose method lacks the attribute ends in a null-reference exception; with the attribute, the caller sees the outcome of `Proceed()` as the entry point hands it on, and the depth ends one below what `Proceed()` left |
| CallTree.Proceed | BusinessLayer/ServiceLayer.cs:20-36 | the real implementation's outcome fits its return type, and when it carries no error it is the implementation's own result, after every nested call succeeded |
| CallTree.RunCounts | Logging/MethodInterceptor.cs:122-139 | a call's summary and exception lines are those of its nested calls plus its own summary when the depth read is 1 and its own exception line when its entry point catches a failure |
| CallTree.DepthBalance | Logging/MethodInterceptor.cs:80-141 | over any tree of annotated nested calls, succeeding or failing at any depth, the depth after the outermost call is the depth before it |
| CallTree.DepthNeverDrops | Logging/MethodInterceptor.cs:145-161 | the depth never ends below where a call started, and a call whose method lacks the attribute leaves it strictly higher |
| CallTree.RootSummary | Logging/MethodInterceptor.cs:135-139 | over any annotated tree, exactly one summary line when the outermost call starts at depth 0, none when it starts deeper |
| CallTree.NoSummaryAbove | Logging/MethodInterceptor.cs:135-139 | a tree of proxied calls started at a positive depth writes no summary line, whether or not its methods carry the attribute |
| CallTree.UnannotatedCounts | Logging/MethodInterceptor.cs:94-107 | a call whose method lacks the attribute writes no summary line of its own |
| CallTree.NestedSummaries | Logging/MethodInterceptor.cs:272-277 | calls made from inside a proxied call write no summary line, whether or not their methods carry the attribute |
| CallTree.Transparency | Logging/MethodInterceptor.cs:122-126 | over an annotated tree the proxied call ends as the direct calls without proxies do: same value, same error; a faulted `Task<TResult>` is met as a throw of the same error |
| CallTree.ExceptionLinePerFailure | Logging/MethodInterceptor.cs:186-190 | exactly one exception line per call whose entry point catches a failure, counted independently from the direct semantics; none when the direct call succeeds |
| CallTree.Serve | Logging/MethodInterceptor.cs:11 | a thread serving calls one after another never ends at a depth below the one it started from |
| CallTree.SummaryPerRequest | Logging/MethodInterceptor.cs:11 | a thread starting at depth 0 serving annotated calls one after another writes exactly one summary line per call and ends at depth 0 |
| CallTree.NoSummaryWhenRaised | Logging/MethodInterceptor.cs:11 | a thread whose depth is already positive writes no summary line for any annotated call and keeps its depth |
| CallTree.NoSummaryFrom | Logging/MethodInterceptor.cs:11 | a thread whose depth is already positive writes no summary line for any calls, annotated or not, and its depth never drops below where it was |
| CallTree.LeakSilencesSummaries | Logging/MethodInterceptor.cs:158-161 | when the first call on a thread lacks the attribute, the depth never returns to 0 and no later call on that thread, annotated or not, writes a summary line |
| WeatherScenario.SynchronousRequest | BusinessLayer/ServiceLayer.cs:19-27 | `GetWeatherForecasts` over the proxied store: depth back to 0, the summarised forecasts returned, one summary line, which is the last line, no exception line, the service banner first |
| WeatherScenario.FailingAsynchronousRequest | BusinessLayer/ServiceLayer.cs:28-36 | when `GenerateForecastsAsync` faults, the caller meets that error, `AssignSummariesAsync` never runs, two exception lines (store and service), one summary line, depth back to 0 |
| WeatherScenario.UnannotatedCallSilencesNextRequest | WebLogging/Program.cs:17-31 | with both services proxied by their own interceptors on one thread, an unannotated call leaves the depth at 1 and the next `GetWeatherForecasts` request writes no summary line |

## Left out

- Console output: the text of each line, the JSON rendering of arguments and values, and the
  assembly name are abstracted to one `LogEvent` constructor per line shape.
- The stopwatch: the elapsed milliseconds are a parameter of each call (`elapsed`).
- Reflection: the attribute lookup, `MethodInvocationTarget ?? Method` and the class name are
  inputs of the model (`Invocation`); the banner's `invocation.Method.Name` and the target's
  `methodName` are taken to be the same name.
- Threads and scheduling: the `ThreadLocal` counter is modelled as one integer threaded through
  the calls of one thread (`Serve`); concurrent threads, which each have their own counter, are
  not modelled together.
- Scheduling of `async` bodies: each real implementation is taken to run to completion inside
  its own `Proceed()`, on the calling thread, at the depth threaded through the tree. This holds
  here because the service layer only awaits proxied `Task<TResult>` calls, and the interceptor
  has already blocked on those (`GetAwaiter().GetResult()`, Logging/MethodInterceptor.cs:245),
  while the store's methods make no proxied call after their `await Task.Run(...)`. A body that
  awaits a pending task (a `Task` child, `Task.Run`, I/O) before a later proxied call is not
  modelled: that later call would run on a pool thread with its own depth counter, and a `Task`
  parent's closing lines would be written before the rest of its body runs.
- Error handling inside implementations: an implementation is taken never to catch an error from
  a nested call, and a synchronous caller is taken to meet a nested task's fault as a throw of
  the same error (as `GetAwaiter().GetResult()` does), not as the `AggregateException` of
  `.Result` or `.Wait()`.
- The legacy `Intercept(IInvocation)` (Logging/MethodInterceptor.cs:12-76) and the unused
  `HandleAsyncMethod` (Logging/MethodInterceptor.cs:283-299): neither is reached through the
  `IAsyncInterceptor` routing the proxies use.
- `ProxyFactory`, `ServiceExtensions`, the dependency-injection registrations in `Program.cs`
  and the controller: wiring only; their effect is that each proxied call goes through a
  `MethodInterceptor`, which is what `CallTree.Run` composes.
- The domain code (dates, temperatures, random summaries) of `WeatherForecast`: values are
  opaque placeholders in the scenario.
- The depth counter is a 32-bit `int` in the code; the model uses unbounded integers, as no
  call chain comes near 2^31 levels.
- Failures of the JSON serializer or the console writer are not modelled.
- CallTree.Propagated: every task-returning implementation is taken to be an `async` method, so a
  nested error faults the task it returns. A task-returning method that is not `async` would let
  the error escape synchronously, and `InterceptAsynchronous` would then write an exception line.
  Every task-returning method of `DataLayer/WeatherForecast.cs` and `BusinessLayer/ServiceLayer.cs`
  is declared `async`.

=== FILE: call_tree.dfy ===
/**
  Nested proxied calls. A real implementation may itself call other proxied services
  (the service layer calling the proxied forecast store); each such call goes through
  its own interceptor, sharing the one call-depth counter of the executing context.
 */
module CallTree {
  import opened Optional
  import opened Invocations
  import opened LogEvents
  import opened Interceptor

  /**
    A proxied call and what its real implementation does: the proxied calls it makes,
    in order, and the outcome it produces once all of them have succeeded. A nested call
    whose error reaches the implementation (thrown, or met when awaiting its task) ends
    the implementation there: a synchronous method lets it escape, an `async` method
    stores it in the task it returns.
   */
  datatype Call = Call(inv: Invocation, elapsed: nat, nested: seq<Call>, result: Outcome)

  /** Every real implementation in the tree returns what its declared type allows. */
  predicate WellFormed(c: Call)
    decreases c
  {
    && Fits(c.inv.kind, c.result)
    && forall i :: 0 <= i < |c.nested| ==> WellFormed(c.nested[i])
  }

  /** Every method in the tree carries its `LogMessage` attribute. */
  predicate Annotated(c: Call)
    decreases c
  {
    && c.inv.attribute.Some?
    && forall i :: 0 <= i < |c.nested| ==> Annotated(c.nested[i])
  }

  /** How an implementation of the given shape hands a nested error on to its own caller. */
  function Propagated(kind: ReturnKind, e: Error): (o: Outcome)
    ensures Fits(kind, o)
    ensures ErrorOf(o) == Some(e)
  {
    if kind.IsAsync() then Faulted(e) else Threw(e)
  }

  /**
    Reference semantics: the outcome when the real implementations call each other
    directly, with no proxy in between.
   */
  function Direct(c: Call): (o: Outcome)
    ensures ErrorOf(o).None? ==> o == c.result
    decreases c, 1
  {
    DirectFrom(c, 0)
  }

  /** The direct outcome of `c`'s implementation, resuming at its `i`-th nested call. */
  function DirectFrom(c: Call, i: nat): (o: Outcome)
    requires i <= |c.nested|
    ensures ErrorOf(o).None? ==> o == c.result
    decreases c, 0, |c.nested| - i
  {
    if i == |c.nested| then c.result
    else
      match ErrorOf(Direct(c.nested[i]))
      case Some(e) => Propagated(c.inv.kind, e)
      case None => DirectFrom(c, i + 1)
  }

  /** A proxied call made at the given depth: the interceptor around the real implementation. */
  function Run(c: Call, depth: int): (r: Step)
    requires WellFormed(c)
    ensures c.inv.attribute.None? ==> r.outcome == Threw(NullReference)
    ensures c.inv.attribute.Some? ==> r.outcome == Observed(c.inv.kind, Proceed(c, 0, depth + 1).outcome)
    ensures c.inv.attribute.Some? ==> r.depth == Proceed(c, 0, depth + 1).depth - 1
    decreases c, 1
  {
    var body := Proceed(c, 0, depth + 1);
    Compose(Intercept(c.inv, c.elapsed, depth, body), body)
  }

  /** What `Proceed()` does for `c`, resuming at its `i`-th nested call at the given depth. */
  function Proceed(c: Call, i: nat, depth: int): (s: Step)
    requires WellFormed(c) && i <= |c.nested|
    ensures Fits(c.inv.kind, s.outcome)
    ensures ErrorOf(s.outcome).None? ==> s.outcome == c.result
    decreases c, 0, |c.nested| - i
  {
    if i == |c.nested| then Step(depth, [], c.result)
    else
      var first := Run(c.nested[i], depth);
      match ErrorOf(first.outcome)
      case Some(e) => Step(first.depth, first.trace, Propagated(c.inv.kind, e))
      case None =>
        var rest := Proceed(c, i + 1, first.depth);
        Step(rest.depth, first.trace + rest.trace, rest.outcome)
  }

  /**
    The summary and exception lines of one annotated call: those of its body, plus its
    own summary when the depth read in `finally` is 1 and its own exception line when
    its entry point catches a failure.
   */
  lemma RunCounts(c: Call, depth: int)
    requires WellFormed(c) && c.inv.attribute.Some?
    ensures var body := Proceed(c, 0, depth + 1);
      && Count(Run(c, depth).trace, IsSummary) == Count(body.trace, IsSummary) + (if body.depth == 1 then 1 else 0)
      && Count(Run(c, depth).trace, IsException) == Count(body.trace, IsException) + (if Observes(c.inv.kind, body.outcome) then 1 else 0)
  {
    var body := Proceed(c, 0, depth + 1);
    var f := Intercept(c.inv, c.elapsed, depth, body);
    assert Run(c, depth).trace == f.opening + body.trace + f.closing;
    Count3(f.opening, body.trace, f.closing, IsSummary);
    Count3(f.opening, body.trace, f.closing, IsException);
  }

  /**
    Depth balance: when every method in the tree carries its attribute, the call depth
    after a proxied call, however deeply nested and whether it succeeds or fails, is the
    depth it started from.
   */
  lemma {:induction false} DepthBalance(c: Call, depth: int)
    requires WellFormed(c) && Annotated(c)
    ensures Run(c, depth).depth == depth
    decreases c, 1
  {
    ProceedBalance(c, 0, depth + 1);
  }

  lemma {:induction false} ProceedBalance(c: Call, i: nat, depth: int)
    requires WellFormed(c) && Annotated(c) && i <= |c.nested|
    ensures Proceed(c, i, depth).depth == depth
    decreases c, 0, |c.nested| - i
  {
    if i < |c.nested| {
      DepthBalance(c.nested[i], depth);
      if ErrorOf(Run(c.nested[i], depth).outcome).None? {
        ProceedBalance(c, i + 1, depth);
      }
    }
  }

  /**
    The depth never ends below where a call started, and a call whose method lacks the
    attribute leaves it at least one higher: its decrement is never reached.
   */
  lemma {:induction false} DepthNeverDrops(c: Call, depth: int)
    requires WellFormed(c)
    ensures Run(c, depth).depth >= depth
    ensures c.inv.attribute.None? ==> Run(c, depth).depth > depth
    decreases c, 1
  {
    ProceedNeverDrops(c, 0, depth + 1);
  }

  lemma {:induction false} ProceedNeverDrops(c: Call, i: nat, depth: int)
    requires WellFormed(c) && i <= |c.nested|
    ensures Proceed(c, i, depth).depth >= depth
    decreases c, 0, |c.nested| - i
  {
    if i < |c.nested| {
      DepthNeverDrops(c.nested[i], depth);
      if ErrorOf(Run(c.nested[i], depth).outcome).None? {
        ProceedNeverDrops(c, i + 1, Run(c.nested[i], depth).depth);
      }
    }
  }

  /**
    Root-only summary: over a tree of annotated proxied calls, the summary line is
    written exactly once when the outermost call starts at depth 0, by that call, and
    never when it starts deeper.
   */
  lemma {:induction false} RootSummary(c: Call, depth: nat)
    requires WellFormed(c) && Annotated(c)
    ensures Count(Run(c, depth).trace, IsSummary) == (if depth == 0 then 1 else 0)
    decreases c, 1
  {
    var body := Proceed(c, 0, depth + 1);
    var own := if body.depth == 1 then 1 else 0;
    assert own == (if depth == 0 then 1 else 0) by {
      ProceedBalance(c, 0, depth + 1);
    }
    assert Count(body.trace, IsSummary) == 0 by {
      NestedSummaries(c, 0, depth + 1);
    }
    assert Count(Run(c, depth).trace, IsSummary) == Count(body.trace, IsSummary) + own by {
      RunCounts(c, depth);
    }
  }

  /**
    A call without the attribute writes no summary line of its own: whatever summary lines
    its trace holds were written by the calls it made.
   */
  lemma UnannotatedCounts(c: Call, depth: int)
    requires WellFormed(c) && c.inv.attribute.None?
    ensures Count(Run(c, depth).trace, IsSummary) <= Count(Proceed(c, 0, depth + 1).trace, IsSummary)
  {
    var body := Proceed(c, 0, depth + 1);
    var f := Intercept(c.inv, c.elapsed, depth, body);
    var inner := if f.proceeds then body.trace else [];
    assert Run(c, depth).trace == f.opening + inner + f.closing;
    Count3(f.opening, inner, f.closing, IsSummary);
  }

  /**
    A proxied call that starts at a positive depth writes no summary line, whether or not
    its methods carry the attribute: the depth read in any `finally` below it is at least 2.
   */
  lemma {:induction false} NoSummaryAbove(c: Call, depth: int)
    requires WellFormed(c) && depth >= 1
    ensures Count(Run(c, depth).trace, IsSummary) == 0
    decreases c, 1
  {
    var body := Proceed(c, 0, depth + 1);
    assert Count(body.trace, IsSummary) == 0 by {
      NestedSummaries(c, 0, depth + 1);
    }
    if c.inv.attribute.Some? {
      assert body.depth >= 2 by {
        ProceedNeverDrops(c, 0, depth + 1);
      }
      RunCounts(c, depth);
    } else {
      UnannotatedCounts(c, depth);
    }
  }

  /** Calls made from inside a proxied call write no summary line. */
  lemma {:induction false} NestedSummaries(c: Call, i: nat, depth: int)
    requires WellFormed(c) && i <= |c.nested| && depth >= 1
    ensures Count(Proceed(c, i, depth).trace, IsSummary) == 0
    decreases c, 0, |c.nested| - i
  {
    if i < |c.nested| {
      var first := Run(c.nested[i], depth);
      assert Count(first.trace, IsSummary) == 0 by {
        NoSummaryAbove(c.nested[i], depth);
      }
      if ErrorOf(first.outcome).None? {
        assert first.depth >= depth by {
          DepthNeverDrops(c.nested[i], depth);
        }
        var rest := Proceed(c, i + 1, first.depth);
        assert Count(rest.trace, IsSummary) == 0 by {
          NestedSummaries(c, i + 1, first.depth);
        }
        CountAppend(first.trace, rest.trace, IsSummary);
      }
    }
  }

  /**
    Transparency and error passthrough: when every method carries its attribute, the
    proxied call ends as the direct call does, the same value or the same error; only a
    faulted `Task<TResult>` is met as a throw rather than as a faulted task.
   */
  lemma {:induction false} Transparency(c: Call, depth: int)
    requires WellFormed(c) && Annotated(c)
    ensures Run(c, depth).outcome == Observed(c.inv.kind, Direct(c))
    ensures ErrorOf(Run(c, depth).outcome) == ErrorOf(Direct(c))
    decreases c, 1
  {
    ProceedTransparency(c, 0, depth + 1);
  }

  lemma {:induction false} ProceedTransparency(c: Call, i: nat, depth: int)
    requires WellFormed(c) && Annotated(c) && i <= |c.nested|
    ensures Proceed(c, i, depth).outcome == DirectFrom(c, i)
    decreases c, 0, |c.nested| - i
  {
    if i < |c.nested| {
      Transparency(c.nested[i], depth);
      var first := Run(c.nested[i], depth);
      if ErrorOf(first.outcome).None? {
        ProceedTransparency(c, i + 1, first.depth);
      }
    }
  }

  /**
    Reference count of the calls whose interceptor catches a failure: the calls that
    actually run (those after a failed sibling never do) and whose own entry point sees
    the error, computed from the direct semantics.
   */
  function FailingCalls(c: Call): nat
    decreases c, 1
  {
    (if Observes(c.inv.kind, Direct(c)) then 1 else 0) + FailingFrom(c, 0)
  }

  function FailingFrom(c: Call, i: nat): nat
    requires i <= |c.nested|
    decreases c, 0, |c.nested| - i
  {
    if i == |c.nested| then 0
    else FailingCalls(c.nested[i]) + (if ErrorOf(Direct(c.nested[i])).Some? then 0 else FailingFrom(c, i + 1))
  }

  /**
    Exactly one exception line per failing call: over an annotated tree the trace holds
    one exception line for each call whose entry point catches a failure, so a call tree
    that succeeds writes none at all.
   */
  lemma {:induction false} ExceptionLinePerFailure(c: Call, depth: int)
    requires WellFormed(c) && Annotated(c)
    ensures Count(Run(c, depth).trace, IsException) == FailingCalls(c)
    ensures ErrorOf(Direct(c)).None? ==> Count(Run(c, depth).trace, IsException) == 0
    decreases c, 1
  {
    var body := Proceed(c, 0, depth + 1);
    ProceedTransparency(c, 0, depth + 1);
    ProceedExceptionLines(c, 0, depth + 1);
    RunCounts(c, depth);
    if ErrorOf(Direct(c)).None? {
      NoFailureBelow(c, 0);
    }
  }

  lemma {:induction false} ProceedExceptionLines(c: Call, i: nat, depth: int)
    requires WellFormed(c) && Annotated(c) && i <= |c.nested|
    ensures Count(Proceed(c, i, depth).trace, IsException) == FailingFrom(c, i)
    decreases c, 0, |c.nested| - i
  {
    if i < |c.nested| {
      var child := c.nested[i];
      var first := Run(child, depth);
      assert Count(first.trace, IsException) == FailingCalls(child) by {
        ExceptionLinePerFailure(child, depth);
      }
      assert ErrorOf(first.outcome) == ErrorOf(Direct(child)) by {
        Transparency(child, depth);
      }
      if ErrorOf(first.outcome).None? {
        var rest := Proceed(c, i + 1, first.depth);
        assert Count(rest.trace, IsException) == FailingFrom(c, i + 1) by {
          ProceedExceptionLines(c, i + 1, first.depth);
        }
        CountAppend(first.trace, rest.trace, IsException);
      }
    }
  }

  /** When the direct call succeeds, none of the calls it makes from index `i` on fails. */
  lemma {:induction false} NoFailureBelow(c: Call, i: nat)
    requires i <= |c.nested| && ErrorOf(DirectFrom(c, i)).None?
    ensures FailingFrom(c, i) == 0
    decreases c, 0, |c.nested| - i
  {
    if i < |c.nested| {
      assert ErrorOf(Direct(c.nested[i])).None?;
      NoFailure(c.nested[i]);
      NoFailureBelow(c, i + 1);
    }
  }

  lemma {:induction false} NoFailure(c: Call)
    requires ErrorOf(Direct(c)).None?
    ensures FailingCalls(c) == 0
    decreases c, 1
  {
    NoFailureBelow(c, 0);
  }

  /** Every call of a sequence is well formed. */
  predicate AllWellFormed(calls: seq<Call>)
  {
    forall i :: 0 <= i < |calls| ==> WellFormed(calls[i])
  }

  /** Every call of a sequence is annotated throughout. */
  predicate AllAnnotated(calls: seq<Call>)
  {
    forall i :: 0 <= i < |calls| ==> Annotated(calls[i])
  }

  /**
    Successive top-level calls served by one thread. The depth counter is a static
    thread-local, so each call starts from whatever depth the previous one left.
    Answers the depth left at the end and all the lines written.
   */
  function Serve(calls: seq<Call>, depth: int): (r: (int, seq<LogEvent>))
    requires AllWellFormed(calls)
    ensures r.0 >= depth
  {
    if calls == [] then (depth, [])
    else
      var first := Run(calls[0], depth);
      DepthNeverDrops(calls[0], depth);
      var rest := Serve(calls[1..], first.depth);
      (rest.0, first.trace + rest.1)
  }

  /**
    One summary per independent call: a thread that starts at depth 0 and serves only
    annotated calls writes exactly one summary line per call and ends at depth 0.
   */
  lemma {:induction false} SummaryPerRequest(calls: seq<Call>)
    requires AllWellFormed(calls) && AllAnnotated(calls)
    ensures Serve(calls, 0).0 == 0
    ensures Count(Serve(calls, 0).1, IsSummary) == |calls|
  {
    if calls != [] {
      var first := Run(calls[0], 0);
      DepthBalance(calls[0], 0);
      RootSummary(calls[0], 0);
      SummaryPerRequest(calls[1..]);
      CountAppend(first.trace, Serve(calls[1..], 0).1, IsSummary);
    }
  }

  /** A thread whose depth is already positive writes no summary line for annotated calls. */
  lemma {:induction false} NoSummaryWhenRaised(calls: seq<Call>, depth: nat)
    requires AllWellFormed(calls) && AllAnnotated(calls) && depth >= 1
    ensures Serve(calls, depth).0 == depth
    ensures Count(Serve(calls, depth).1, IsSummary) == 0
  {
    if calls != [] {
      var first := Run(calls[0], depth);
      DepthBalance(calls[0], depth);
      RootSummary(calls[0], depth);
      NoSummaryWhenRaised(calls[1..], depth);
      CountAppend(first.trace, Serve(calls[1..], depth).1, IsSummary);
    }
  }

  /**
    A thread whose depth is already positive writes no summary line, whatever calls it
    serves, and its depth never comes back below where it was.
   */
  lemma {:induction false} NoSummaryFrom(calls: seq<Call>, depth: int)
    requires AllWellFormed(calls) && depth >= 1
    ensures Serve(calls, depth).0 >= depth
    ensures Count(Serve(calls, depth).1, IsSummary) == 0
  {
    if calls != [] {
      var first := Run(calls[0], depth);
      DepthNeverDrops(calls[0], depth);
      NoSummaryAbove(calls[0], depth);
      NoSummaryFrom(calls[1..], first.depth);
      CountAppend(first.trace, Serve(calls[1..], first.depth).1, IsSummary);
    }
  }

  /**
    The leak's lasting effect: when the first call a thread serves lacks the attribute,
    that call and every later call on the thread write no summary line at all, because
    the depth never returns to 0.
   */
  lemma {:induction false} LeakSilencesSummaries(calls: seq<Call>)
    requires AllWellFormed(calls) && |calls| > 0 && calls[0].inv.attribute.None?
    ensures Serve(calls, 0).0 >= 1
    ensures Count(Serve(calls, 0).1, IsSummary) == 0
  {
    var c := calls[0];
    var first := Run(c, 0);
    var body := Proceed(c, 0, 1);
    var f := Intercept(c.inv, c.elapsed, 0, body);
    DepthNeverDrops(c, 0);
    assert Count(body.trace, IsSummary) == 0 by {
      NestedSummaries(c, 0, 1);
    }
    assert first.trace == f.opening + (if f.proceeds then body.trace else []) + f.closing;
    Count3(f.opening, if f.proceeds then body.trace else [], f.closing, IsSummary);
    assert AllWellFormed(calls[1..]);
    NoSummaryFrom(calls[1..], first.depth);
    CountAppend(first.trace, Serve(calls[1..], first.depth).1, IsSummary);
  }
}

=== FILE: interceptor.dfy ===
/**
  The logging interceptor's three entry points. Each one increments the call depth,
  writes its opening lines, lets the real call proceed, writes the result or exception
  lines, and in `finally` writes the timing lines, the summary when the depth it reads
  is 1, and decrements the depth.

  The real call is given as a `Step`: what `Proceed()` produces when started at the
  incremented depth (the depth it leaves behind, the lines written by the proxied
  calls it makes, and its outcome). An entry point answers with a `Frame`: its own
  lines before and after `Proceed()`, whether `Proceed()` ran at all, the depth it
  leaves behind and the outcome its caller sees.
 */
module Interceptor {
  import opened Optional
  import opened Invocations
  import opened LogEvents

  /** What `Proceed()` produces when started at some depth. */
  datatype Step = Step(depth: int, trace: seq<LogEvent>, outcome: Outcome)

  /** One activation of an entry point, as described above. */
  datatype Frame = Frame(
    opening: seq<LogEvent>,
    proceeds: bool,
    closing: seq<LogEvent>,
    depth: int,
    outcome: Outcome)

  /** The whole activation: the interceptor's own lines around those of the real call. */
  function Compose(f: Frame, body: Step): Step
  {
    Step(f.depth, f.opening + (if f.proceeds then body.trace else []) + f.closing, f.outcome)
  }

  /** Whether the entry point for `kind` catches a failure of the real call in its try block. */
  predicate Observes(kind: ReturnKind, o: Outcome)
  {
    o.Threw? || (kind.TaskOf? && o.Faulted?)
  }

  /**
    The outcome the proxy's caller sees when the interceptor itself does not fail:
    a `Task<TResult>` that faults is awaited inside the interceptor and rethrown,
    everything else is handed back as the real call produced it.
   */
  function Observed(kind: ReturnKind, o: Outcome): (r: Outcome)
    ensures ErrorOf(r) == ErrorOf(o)
    ensures !(kind.TaskOf? && o.Faulted?) ==> r == o
    ensures kind.TaskOf? && o.Faulted? ==> r == Threw(o.error)
  {
    if kind.TaskOf? && o.Faulted? then Threw(o.error) else o
  }

  /**
    The bookkeeping every entry point keeps for a method that carries its attribute:
    the real call runs; the depth ends one below what the real call left (the entry's
    own increment undone); the caller sees the real outcome; the summary line appears
    exactly when the depth read in `finally` is 1; exactly one exception line when the
    failure is caught and none otherwise; and neither kind of line before the real call.
   */
  ghost predicate Accounts(inv: Invocation, body: Step, f: Frame)
  {
    && f.proceeds
    && f.depth == body.depth - 1
    && f.outcome == Observed(inv.kind, body.outcome)
    && Count(f.closing, IsSummary) == (if body.depth == 1 then 1 else 0)
    && Count(f.closing, IsException) == (if Observes(inv.kind, body.outcome) then 1 else 0)
    && Count(f.opening, IsSummary) == 0
    && Count(f.opening, IsException) == 0
  }

  /**
    The lines every entry point writes for a method that carries its attribute: success
    lines exactly when the failure is not caught, and otherwise an exception line showing
    the caught error; a tagged duration line on every path, written before any summary
    line; request lines exactly when there are arguments, showing those arguments; the
    custom message exactly when it is non-empty; and all lines in the fixed stage order,
    the result or exception lines before every timing line.
   */
  ghost predicate Writes(inv: Invocation, elapsed: nat, body: Step, f: Frame)
    requires inv.attribute.Some?
  {
    && (Count(f.closing, IsSuccess) > 0 <==> !Observes(inv.kind, body.outcome))
    && ExecutedIn(inv.methodName, elapsed, Some(TagsOf(inv.attribute.value))) in f.closing
    && Before(f.closing, ExecutedIn(inv.methodName, elapsed, Some(TagsOf(inv.attribute.value))), IsSummary)
    && (Observes(inv.kind, body.outcome) ==>
          ExceptionIn(inv.kind.IsAsync(), inv.methodName, body.outcome.error, TagsOf(inv.attribute.value)) in f.closing)
    && (Count(f.opening, IsRequest) > 0 <==> |inv.args| > 0)
    && (|inv.args| > 0 ==> RequestJson(inv.args) in f.opening)
    && Count(f.opening, IsCustom) == (if inv.attribute.value.message != "" then 1 else 0)
    && (inv.attribute.value.message != "" ==>
          CustomMessage(inv.attribute.value.message, TagsOf(inv.attribute.value)) in f.opening)
    && Ordered(f.opening, OpeningStage) && Within(f.opening, OpeningStage, 0, 2)
    && Ordered(f.closing, ClosingStage) && Within(f.closing, ClosingStage, 3, 4)
  }

  /** The whole per-call protocol. */
  ghost predicate Honours(inv: Invocation, elapsed: nat, body: Step, f: Frame)
    requires inv.attribute.Some?
  {
    Accounts(inv, body, f) && Writes(inv, elapsed, body, f)
  }

  /** The custom-message line, written only for a non-empty message. */
  function CustomLines(a: LogMessage): seq<LogEvent>
  {
    if a.message != "" then [CustomMessage(a.message, TagsOf(a))] else []
  }

  /** The request header and argument JSON, written only when there are arguments. */
  function RequestLines(args: seq<Value>, tags: Tags): seq<LogEvent>
  {
    if |args| > 0 then [RequestHeader(tags), RequestJson(args)] else []
  }

  /** The lines written before the real call: banners, custom message, request. */
  function Opening(banners: seq<LogEvent>, a: LogMessage, args: seq<Value>): seq<LogEvent>
  {
    banners + CustomLines(a) + RequestLines(args, TagsOf(a))
  }

  /** The first three lines of every `finally` block: two duration lines and the class name. */
  function TimingLines(inv: Invocation, elapsed: nat, tags: Tags): seq<LogEvent>
  {
    [ ExecutedIn(inv.methodName, elapsed, Some(tags)),
      ExecutedIn(inv.methodName, elapsed, None),
      ClassName(inv.className) ]
  }

  // InterceptSynchronous, with the attribute present

  function SyncBanners(inv: Invocation): seq<LogEvent>
  {
    [ Intercepting(SyncBanner, inv.methodName, None),
      Intercepting(ResultBanner, inv.methodName, None),
      ClassName(inv.className) ]
  }

  /** The try block's lines after `Proceed()`, or the catch block's line. */
  function SyncResult(inv: Invocation, tags: Tags, o: Outcome): seq<LogEvent>
  {
    match o
    case Returned(v) =>
      if inv.kind.Plain? then
        [ResponseHeader(Some(tags)), ResponseJson(v), ExecutedSuccessfully(inv.methodName, Some(tags))]
      else [ExecutedSuccessfully(inv.methodName, Some(tags))]
    case _ => [ExceptionIn(false, inv.methodName, o.error, tags)]
  }

  function SyncSummary(depthRead: int): seq<LogEvent>
  {
    if depthRead == 1 then [Summary] else []
  }

  function SyncFrame(inv: Invocation, a: LogMessage, elapsed: nat, body: Step): Frame
  {
    var tags := TagsOf(a);
    Frame(
      Opening(SyncBanners(inv), a, inv.args),
      true,
      SyncResult(inv, tags, body.outcome) + TimingLines(inv, elapsed, tags) + SyncSummary(body.depth),
      body.depth - 1,
      body.outcome)
  }

  // InterceptAsynchronous and InterceptAsynchronous<TResult>, with the attribute present

  function AsyncBanners(inv: Invocation, a: LogMessage): seq<LogEvent>
  {
    [ Intercepting(ResultBanner, inv.methodName, Some(TagsOf(a))),
      Intercepting(ResultBanner, inv.methodName, None),
      ClassName(inv.className) ]
  }

  /** The end of the `finally` block of both asynchronous entry points. */
  function AsyncSummary(inv: Invocation, elapsed: nat, depthRead: int): seq<LogEvent>
  {
    if depthRead == 1 then [Summary, ExecutedIn(inv.methodName, elapsed, None)] else []
  }

  /** `InterceptAsynchronous`: the task is not awaited, so only a synchronous throw is caught. */
  function TaskResult(inv: Invocation, tags: Tags, o: Outcome): seq<LogEvent>
  {
    if o.Threw? then [ExceptionIn(true, inv.methodName, o.error, tags)]
    else
      [ ExecutedSuccessfully(inv.methodName, None),
        ExecutedSuccessfully(inv.methodName, Some(tags)),
        TaskCompleted,
        ExecutedSuccessfully(inv.methodName, Some(tags)) ]
  }

  /** `InterceptAsynchronous<TResult>`: the task is awaited, so a fault is caught too. */
  function TaskOfResult(inv: Invocation, tags: Tags, o: Outcome): seq<LogEvent>
  {
    match o
    case Returned(v) =>
      [ ResponseHeader(None),
        ResponseJson(v),
        ExecutedSuccessfully(inv.methodName, None),
        ExecutedSuccessfully(inv.methodName, Some(tags)) ]
    case _ => [ExceptionIn(true, inv.methodName, o.error, tags)]
  }

  function AsyncFrame(inv: Invocation, a: LogMessage, elapsed: nat, body: Step): Frame
    requires inv.kind.IsAsync()
  {
    var tags := TagsOf(a);
    var result := if inv.kind.Task? then TaskResult(inv, tags, body.outcome) else TaskOfResult(inv, tags, body.outcome);
    Frame(
      Opening(AsyncBanners(inv, a), a, inv.args),
      true,
      result + TimingLines(inv, elapsed, tags) + AsyncSummary(inv, elapsed, body.depth),
      body.depth - 1,
      Observed(inv.kind, body.outcome))
  }

  /**
    `InterceptSynchronous`, for methods returning `void` or a plain value.
    Without the attribute, the first tagged line dereferences the missing attribute:
    before the try block when there are arguments (the real call never runs), otherwise
    inside it, and again in the catch and finally blocks; either way the three banner
    lines are all that is written, the caller gets a null-reference exception in place
    of the real outcome, and the decrement in `finally` is never reached.
   */
  function InterceptSynchronous(inv: Invocation, elapsed: nat, depth: int, body: Step): (f: Frame)
    requires !inv.kind.IsAsync()
    requires Fits(inv.kind, body.outcome)
    ensures inv.attribute.Some? ==> Accounts(inv, body, f)
    ensures inv.attribute.None? ==> f.outcome == Threw(NullReference) && f.closing == []
    ensures inv.attribute.None? ==> (f.proceeds <==> |inv.args| == 0)
    ensures inv.attribute.None? ==> f.depth == (if f.proceeds then body.depth else depth + 1)
    ensures Count(f.opening, IsSummary) == 0 && Count(f.opening, IsException) == 0
  {
    match inv.attribute
    case None =>
      var banners := SyncBanners(inv);
      CountShort(banners, IsSummary);
      CountShort(banners, IsException);
      if |inv.args| > 0 then Frame(banners, false, [], depth + 1, Threw(NullReference))
      else Frame(banners, true, [], body.depth, Threw(NullReference))
    case Some(a) =>
      SyncFrameKeepsProtocol(inv, a, elapsed, body);
      SyncFrame(inv, a, elapsed, body)
  }

  /**
    `InterceptAsynchronous`, for methods returning a `Task`. The task is never awaited:
    a task that faults later is handed back untouched after the success lines and
    "Response: Task completed." have been written; only a synchronous throw from the
    real call reaches the catch block. Without the attribute, the very first line
    dereferences it: nothing is written, the real call never runs, the depth stays
    incremented.
   */
  function InterceptAsynchronous(inv: Invocation, elapsed: nat, depth: int, body: Step): (f: Frame)
    requires inv.kind.Task?
    ensures inv.attribute.Some? ==> Accounts(inv, body, f)
    ensures inv.attribute.None? ==> f == Frame([], false, [], depth + 1, Threw(NullReference))
  {
    match inv.attribute
    case None => Frame([], false, [], depth + 1, Threw(NullReference))
    case Some(a) =>
      AsyncFrameKeepsProtocol(inv, a, elapsed, body);
      AsyncFrame(inv, a, elapsed, body)
  }

  /**
    `InterceptAsynchronous<TResult>`, for methods returning a `Task<TResult>`. The task
    is awaited inside the try block, so a fault is caught like a synchronous throw,
    logged once and rethrown; on success the awaited result is what the response line
    shows. Without the attribute it fails exactly as `InterceptAsynchronous` does.
   */
  function InterceptAsynchronousResult(inv: Invocation, elapsed: nat, depth: int, body: Step): (f: Frame)
    requires inv.kind.TaskOf?
    ensures inv.attribute.Some? ==> Accounts(inv, body, f)
    ensures inv.attribute.None? ==> f == Frame([], false, [], depth + 1, Threw(NullReference))
  {
    match inv.attribute
    case None => Frame([], false, [], depth + 1, Threw(NullReference))
    case Some(a) =>
      AsyncFrameKeepsProtocol(inv, a, elapsed, body);
      AsyncFrame(inv, a, elapsed, body)
  }

  /**
    The proxy's routing by return type: plain and `void` methods go to the synchronous
    entry point, `Task` to the asynchronous one, `Task<TResult>` to the generic one.
    Whatever the route, a method with its attribute keeps the per-call protocol, and a
    method without it ends in a null-reference exception with the depth left raised.
   */
  function Intercept(inv: Invocation, elapsed: nat, depth: int, body: Step): (f: Frame)
    requires Fits(inv.kind, body.outcome)
    ensures inv.attribute.Some? ==> Accounts(inv, body, f)
    ensures inv.attribute.None? ==> f.outcome == Threw(NullReference) && f.closing == []
    ensures inv.attribute.None? ==> Count(f.opening, IsSummary) == 0 && Count(f.opening, IsException) == 0
    ensures inv.attribute.None? ==> f.depth == (if f.proceeds then body.depth else depth + 1)
    ensures f.proceeds <==> inv.attribute.Some? || (!inv.kind.IsAsync() && |inv.args| == 0)
  {
    match inv.kind
    case Void => InterceptSynchronous(inv, elapsed, depth, body)
    case Plain => InterceptSynchronous(inv, elapsed, depth, body)
    case Task => InterceptAsynchronous(inv, elapsed, depth, body)
    case TaskOf => InterceptAsynchronousResult(inv, elapsed, depth, body)
  }

  /**
    `InterceptSynchronous` with the attribute present keeps the whole per-call protocol,
    and shows the response exactly for a plain method whose real call returned, with
    the returned value untouched.
   */
  lemma SynchronousProtocol(inv: Invocation, elapsed: nat, depth: int, body: Step)
    requires !inv.kind.IsAsync() && Fits(inv.kind, body.outcome) && inv.attribute.Some?
    ensures var f := InterceptSynchronous(inv, elapsed, depth, body);
      && Honours(inv, elapsed, body, f)
      && (Count(f.closing, IsResponse) > 0 <==> inv.kind.Plain? && body.outcome.Returned?)
      && (inv.kind.Plain? && body.outcome.Returned? ==> ResponseJson(body.outcome.value) in f.closing)
  {
    SyncFrameKeepsProtocol(inv, inv.attribute.value, elapsed, body);
  }

  /**
    `InterceptAsynchronous` with the attribute present keeps the whole per-call protocol,
    writes no response lines, and reports the task completed exactly when the real call
    did not throw, whatever the task later does.
   */
  lemma AsynchronousProtocol(inv: Invocation, elapsed: nat, depth: int, body: Step)
    requires inv.kind.Task? && inv.attribute.Some?
    ensures var f := InterceptAsynchronous(inv, elapsed, depth, body);
      && Honours(inv, elapsed, body, f)
      && Count(f.closing, IsResponse) == 0
      && (TaskCompleted in f.closing <==> !body.outcome.Threw?)
  {
    AsyncFrameKeepsProtocol(inv, inv.attribute.value, elapsed, body);
  }

  /**
    `InterceptAsynchronous<TResult>` with the attribute present keeps the whole per-call
    protocol and shows the response exactly when the awaited task produced a value, the
    value itself.
   */
  lemma AsynchronousResultProtocol(inv: Invocation, elapsed: nat, depth: int, body: Step)
    requires inv.kind.TaskOf? && inv.attribute.Some?
    ensures var f := InterceptAsynchronousResult(inv, elapsed, depth, body);
      && Honours(inv, elapsed, body, f)
      && (Count(f.closing, IsResponse) > 0 <==> body.outcome.Returned?)
      && (body.outcome.Returned? ==> ResponseJson(body.outcome.value) in f.closing)
  {
    AsyncFrameKeepsProtocol(inv, inv.attribute.value, elapsed, body);
  }

  /** Whatever the route, a method with its attribute keeps the whole per-call protocol. */
  lemma InterceptProtocol(inv: Invocation, elapsed: nat, depth: int, body: Step)
    requires Fits(inv.kind, body.outcome) && inv.attribute.Some?
    ensures Honours(inv, elapsed, body, Intercept(inv, elapsed, depth, body))
  {
    match inv.kind
    case Void => SynchronousProtocol(inv, elapsed, depth, body);
    case Plain => SynchronousProtocol(inv, elapsed, depth, body);
    case Task => AsynchronousProtocol(inv, elapsed, depth, body);
    case TaskOf => AsynchronousResultProtocol(inv, elapsed, depth, body);
  }

  /**
    Without the attribute, the synchronous entry point writes exactly its three banner
    lines, and so no request line, no custom line and nothing after the real call.
   */
  lemma SynchronousWithoutAttribute(inv: Invocation, elapsed: nat, depth: int, body: Step)
    requires !inv.kind.IsAsync() && Fits(inv.kind, body.outcome) && inv.attribute.None?
    ensures var f := InterceptSynchronous(inv, elapsed, depth, body);
      && f.opening == SyncBanners(inv)
      && Count(f.opening, IsRequest) == 0 && Count(f.opening, IsCustom) == 0
      && f.closing == []
      && f == Intercept(inv, elapsed, depth, body)
  {
    BannerCounts(SyncBanners(inv));
  }

  lemma BannerCounts(banners: seq<LogEvent>)
    requires |banners| == 3 && banners[0].Intercepting? && banners[1].Intercepting? && banners[2].ClassName?
    ensures Uniform(banners, OpeningStage, Announce)
    ensures Count(banners, IsSummary) == 0 && Count(banners, IsException) == 0
    ensures Count(banners, IsRequest) == 0 && Count(banners, IsCustom) == 0
  {
    CountShort(banners, IsSummary);
    CountShort(banners, IsException);
    CountShort(banners, IsRequest);
    CountShort(banners, IsCustom);
  }

  lemma CustomCounts(a: LogMessage)
    ensures var s := CustomLines(a);
      && Uniform(s, OpeningStage, Custom)
      && Count(s, IsSummary) == 0 && Count(s, IsException) == 0 && Count(s, IsRequest) == 0
      && Count(s, IsCustom) == (if a.message != "" then 1 else 0)
  {
  }

  lemma RequestCounts(args: seq<Value>, tags: Tags)
    ensures var s := RequestLines(args, tags);
      && Uniform(s, OpeningStage, Request)
      && Count(s, IsSummary) == 0 && Count(s, IsException) == 0 && Count(s, IsCustom) == 0
      && (Count(s, IsRequest) > 0 <==> |args| > 0)
  {
    var s := RequestLines(args, tags);
    CountShort(s, IsSummary);
    CountShort(s, IsException);
    CountShort(s, IsCustom);
    CountShort(s, IsRequest);
  }

  /** The opening lines are in stage order and hold the request and custom lines as promised. */
  lemma OpeningFacts(banners: seq<LogEvent>, a: LogMessage, args: seq<Value>)
    requires |banners| == 3 && banners[0].Intercepting? && banners[1].Intercepting? && banners[2].ClassName?
    ensures var opening := Opening(banners, a, args);
      && Count(opening, IsSummary) == 0
      && Count(opening, IsException) == 0
      && (Count(opening, IsRequest) > 0 <==> |args| > 0)
      && Count(opening, IsCustom) == (if a.message != "" then 1 else 0)
      && Ordered(opening, OpeningStage) && Within(opening, OpeningStage, 0, 2)
  {
    var custom := CustomLines(a);
    var request := RequestLines(args, TagsOf(a));
    BannerCounts(banners);
    CustomCounts(a);
    RequestCounts(args, TagsOf(a));
    Count3(banners, custom, request, IsSummary);
    Count3(banners, custom, request, IsException);
    Count3(banners, custom, request, IsRequest);
    Count3(banners, custom, request, IsCustom);
    OrderedAppend(banners, custom, OpeningStage, 0);
    OrderedAppend(banners + custom, request, OpeningStage, 1);
  }

  /** Closing lines made of result lines and then timing lines are in stage order. */
  lemma ClosingOrder(result: seq<LogEvent>, timing: seq<LogEvent>, tail: seq<LogEvent>)
    requires Uniform(result, ClosingStage, Result) && Uniform(timing, ClosingStage, Finally) && Uniform(tail, ClosingStage, Finally)
    ensures Ordered(result + timing + tail, ClosingStage)
    ensures Within(result + timing + tail, ClosingStage, 3, 4)
  {
    OrderedAppend(result, timing, ClosingStage, 3);
    OrderedAppend(result + timing, tail, ClosingStage, 4);
  }

  lemma TimingCounts(inv: Invocation, elapsed: nat, tags: Tags)
    ensures var t := TimingLines(inv, elapsed, tags);
      && Uniform(t, ClosingStage, Finally)
      && Count(t, IsSummary) == 0 && Count(t, IsException) == 0
      && Count(t, IsSuccess) == 0 && Count(t, IsResponse) == 0
      && ExecutedIn(inv.methodName, elapsed, Some(tags)) in t
  {
    var t := TimingLines(inv, elapsed, tags);
    CountShort(t, IsSummary);
    CountShort(t, IsException);
    CountShort(t, IsSuccess);
    CountShort(t, IsResponse);
  }

  lemma SummaryCounts(s: seq<LogEvent>, inv: Invocation, elapsed: nat, depthRead: int)
    requires s == SyncSummary(depthRead) || s == AsyncSummary(inv, elapsed, depthRead)
    ensures Uniform(s, ClosingStage, Finally)
    ensures Count(s, IsSummary) == (if depthRead == 1 then 1 else 0)
    ensures Count(s, IsException) == 0 && Count(s, IsSuccess) == 0 && Count(s, IsResponse) == 0
  {
    CountShort(s, IsSummary);
    CountShort(s, IsException);
    CountShort(s, IsSuccess);
    CountShort(s, IsResponse);
  }

  /** The four counts of a short run of result lines, position by position. */
  lemma ResultCounts(r: seq<LogEvent>)
    requires |r| <= 4
    ensures Count(r, IsSummary) == Hit(r, 0, IsSummary) + Hit(r, 1, IsSummary) + Hit(r, 2, IsSummary) + Hit(r, 3, IsSummary)
    ensures Count(r, IsException) == Hit(r, 0, IsException) + Hit(r, 1, IsException) + Hit(r, 2, IsException) + Hit(r, 3, IsException)
    ensures Count(r, IsSuccess) == Hit(r, 0, IsSuccess) + Hit(r, 1, IsSuccess) + Hit(r, 2, IsSuccess) + Hit(r, 3, IsSuccess)
    ensures Count(r, IsResponse) == Hit(r, 0, IsResponse) + Hit(r, 1, IsResponse) + Hit(r, 2, IsResponse) + Hit(r, 3, IsResponse)
  {
    CountShort(r, IsSummary);
    CountShort(r, IsException);
    CountShort(r, IsSuccess);
    CountShort(r, IsResponse);
  }

  lemma SyncResultCounts(inv: Invocation, tags: Tags, o: Outcome)
    requires !o.Faulted?
    ensures var r := SyncResult(inv, tags, o);
      && Uniform(r, ClosingStage, Result)
      && Count(r, IsSummary) == 0
      && Count(r, IsException) == (if o.Threw? then 1 else 0)
      && (Count(r, IsSuccess) > 0 <==> o.Returned?)
      && (Count(r, IsResponse) > 0 <==> inv.kind.Plain? && o.Returned?)
      && (inv.kind.Plain? && o.Returned? ==> ResponseJson(o.value) in r)
  {
    var r := SyncResult(inv, tags, o);
    match o
    case Returned(_) => ResultCounts(r);
    case Threw(_) => ResultCounts(r);
    case Faulted(_) => ResultCounts(r);
  }

  lemma TaskResultCounts(inv: Invocation, tags: Tags, o: Outcome)
    ensures var r := TaskResult(inv, tags, o);
      && Uniform(r, ClosingStage, Result)
      && Count(r, IsSummary) == 0
      && Count(r, IsException) == (if o.Threw? then 1 else 0)
      && (Count(r, IsSuccess) > 0 <==> !o.Threw?)
      && Count(r, IsResponse) == 0
      && (TaskCompleted in r <==> !o.Threw?)
  {
    var r := TaskResult(inv, tags, o);
    match o
    case Returned(_) => ResultCounts(r);
    case Threw(_) => ResultCounts(r);
    case Faulted(_) => ResultCounts(r);
  }

  lemma TaskOfResultCounts(inv: Invocation, tags: Tags, o: Outcome)
    ensures var r := TaskOfResult(inv, tags, o);
      && Uniform(r, ClosingStage, Result)
      && Count(r, IsSummary) == 0
      && Count(r, IsException) == (if o.Returned? then 0 else 1)
      && (Count(r, IsSuccess) > 0 <==> o.Returned?)
      && (Count(r, IsResponse) > 0 <==> o.Returned?)
      && (o.Returned? ==> ResponseJson(o.value) in r)
      && TaskCompleted !in r
  {
    var r := TaskOfResult(inv, tags, o);
    match o
    case Returned(_) => ResultCounts(r);
    case Threw(_) => ResultCounts(r);
    case Faulted(_) => ResultCounts(r);
  }

  /**
    In closing lines made of result lines, then the three timing lines, then the summary
    tail, the tagged duration line comes before every summary line.
   */
  lemma DurationBeforeSummary(result: seq<LogEvent>, timing: seq<LogEvent>, tail: seq<LogEvent>, duration: LogEvent)
    requires Uniform(result, ClosingStage, Result)
    requires |timing| == 3 && timing[0] == duration && !duration.Summary?
    ensures Before(result + timing + tail, duration, IsSummary)
  {
    var s := result + timing + tail;
    assert s[|result|] == duration;
    forall k | 0 <= k <= |result|
      ensures !IsSummary(s[k])
    {
      if k < |result| {
        assert s[k] == result[k];
        assert ClosingStage(result[k]) == Result;
      }
    }
  }

  lemma Count3(a: seq<LogEvent>, b: seq<LogEvent>, c: seq<LogEvent>, p: LogEvent -> bool)
    ensures Count(a + b + c, p) == Count(a, p) + Count(b, p) + Count(c, p)
  {
    CountAppend(a, b, p);
    CountAppend(a + b, c, p);
  }

  /** The synchronous entry point keeps the per-call protocol when the attribute is present. */
  lemma SyncFrameKeepsProtocol(inv: Invocation, a: LogMessage, elapsed: nat, body: Step)
    requires inv.attribute == Some(a) && !inv.kind.IsAsync()
    requires Fits(inv.kind, body.outcome)
    ensures Honours(inv, elapsed, body, SyncFrame(inv, a, elapsed, body))
    ensures var f := SyncFrame(inv, a, elapsed, body);
      && (Count(f.closing, IsResponse) > 0 <==> inv.kind.Plain? && body.outcome.Returned?)
      && (inv.kind.Plain? && body.outcome.Returned? ==> ResponseJson(body.outcome.value) in f.closing)
  {
    var tags := TagsOf(a);
    var result := SyncResult(inv, tags, body.outcome);
    var timing := TimingLines(inv, elapsed, tags);
    var tail := SyncSummary(body.depth);
    OpeningFacts(SyncBanners(inv), a, inv.args);
    SyncResultCounts(inv, tags, body.outcome);
    TimingCounts(inv, elapsed, tags);
    SummaryCounts(tail, inv, elapsed, body.depth);
    ClosingOrder(result, timing, tail);
    DurationBeforeSummary(result, timing, tail, timing[0]);
    Count3(result, timing, tail, IsSummary);
    Count3(result, timing, tail, IsException);
    Count3(result, timing, tail, IsSuccess);
    Count3(result, timing, tail, IsResponse);
  }

  /** The asynchronous entry points keep the per-call protocol when the attribute is present. */
  lemma AsyncFrameKeepsProtocol(inv: Invocation, a: LogMessage, elapsed: nat, body: Step)
    requires inv.attribute == Some(a) && inv.kind.IsAsync()
    ensures Honours(inv, elapsed, body, AsyncFrame(inv, a, elapsed, body))
    ensures var f := AsyncFrame(inv, a, elapsed, body);
      && (inv.kind.Task? ==> Count(f.closing, IsResponse) == 0)
      && (inv.kind.Task? ==> (TaskCompleted in f.closing <==> !body.outcome.Threw?))
      && (inv.kind.TaskOf? ==> (Count(f.closing, IsResponse) > 0 <==> body.outcome.Returned?))
      && (inv.kind.TaskOf? && body.outcome.Returned? ==> ResponseJson(body.outcome.value) in f.closing)
  {
    OpeningFacts(AsyncBanners(inv, a), a, inv.args);
    if inv.kind.Task? {
      TaskFrameCloses(inv, a, elapsed, body);
    } else {
      TaskOfFrameCloses(inv, a, elapsed, body);
    }
  }

  /** The closing lines of `InterceptAsynchronous`. */
  lemma TaskFrameCloses(inv: Invocation, a: LogMessage, elapsed: nat, body: Step)
    requires inv.attribute == Some(a) && inv.kind.Task?
    ensures var f := AsyncFrame(inv, a, elapsed, body);
      && Count(f.closing, IsSummary) == (if body.depth == 1 then 1 else 0)
      && Count(f.closing, IsException) == (if body.outcome.Threw? then 1 else 0)
      && (Count(f.closing, IsSuccess) > 0 <==> !body.outcome.Threw?)
      && Count(f.closing, IsResponse) == 0
      && (TaskCompleted in f.closing <==> !body.outcome.Threw?)
      && ExecutedIn(inv.methodName, elapsed, Some(TagsOf(a))) in f.closing
      && Before(f.closing, ExecutedIn(inv.methodName, elapsed, Some(TagsOf(a))), IsSummary)
      && Ordered(f.closing, ClosingStage) && Within(f.closing, ClosingStage, 3, 4)
  {
    var tags := TagsOf(a);
    var result := TaskResult(inv, tags, body.outcome);
    var timing := TimingLines(inv, elapsed, tags);
    var tail := AsyncSummary(inv, elapsed, body.depth);
    assert AsyncFrame(inv, a, elapsed, body).closing == result + timing + tail;
    TaskResultCounts(inv, tags, body.outcome);
    TimingCounts(inv, elapsed, tags);
    SummaryCounts(tail, inv, elapsed, body.depth);
    ClosingOrder(result, timing, tail);
    DurationBeforeSummary(result, timing, tail, timing[0]);
    Count3(result, timing, tail, IsSummary);
    Count3(result, timing, tail, IsException);
    Count3(result, timing, tail, IsSuccess);
    Count3(result, timing, tail, IsResponse);
  }

  /** The closing lines of `InterceptAsynchronous<TResult>`. */
  lemma TaskOfFrameCloses(inv: Invocation, a: LogMessage, elapsed: nat, body: Step)
    requires inv.attribute == Some(a) && inv.kind.TaskOf?
    ensures var f := AsyncFrame(inv, a, elapsed, body);
      && Count(f.closing, IsSummary) == (if body.depth == 1 then 1 else 0)
      && Count(f.closing, IsException) == (if body.outcome.Returned? then 0 else 1)
      && (Count(f.closing, IsSuccess) > 0 <==> body.outcome.Returned?)
      && (Count(f.closing, IsResponse) > 0 <==> body.outcome.Returned?)
      && (body.outcome.Returned? ==> ResponseJson(body.outcome.value) in f.closing)
      && ExecutedIn(inv.methodName, elapsed, Some(TagsOf(a))) in f.closing
      && Before(f.closing, ExecutedIn(inv.methodName, elapsed, Some(TagsOf(a))), IsSummary)
      && Ordered(f.closing, ClosingStage) && Within(f.closing, ClosingStage, 3, 4)
  {
    var tags := TagsOf(a);
    var result := TaskOfResult(inv, tags, body.outcome);
    var timing := TimingLines(inv, elapsed, tags);
    var tail := AsyncSummary(inv, elapsed, body.depth);
    assert AsyncFrame(inv, a, elapsed, body).closing == result + timing + tail;
    TaskOfResultCounts(inv, tags, body.outcome);
    TimingCounts(inv, elapsed, tags);
    SummaryCounts(tail, inv, elapsed, body.depth);
    ClosingOrder(result, timing, tail);
    DurationBeforeSummary(result, timing, tail, timing[0]);
    Count3(result, timing, tail, IsSummary);
    Count3(result, timing, tail, IsException);
    Count3(result, timing, tail, IsSuccess);
    Count3(result, timing, tail, IsResponse);
  }
}

=== FILE: invocation.dfy ===
/** The conventional optional value. */
module Optional {

  datatype Option<+T> = None | Some(value: T)
}

/**
  What the interceptor learns about one proxied call: the method's identity, the
  `LogMessage` attribute found on the target method (if any), the shape of its return
  type, its arguments, and what the real implementation does when it is called.
 */
module Invocations {
  import opened Optional

  /** The attribute record the interceptor consumes: a custom message and two tags. */
  datatype LogMessage = LogMessage(message: string, application: string, environment: string)

  /** The "Name: …, Environment: …" suffix that most interceptor lines carry. */
  datatype Tags = Tags(application: string, environment: string)

  function TagsOf(a: LogMessage): (t: Tags)
    ensures t.application == a.application && t.environment == a.environment
  {
    Tags(a.application, a.environment)
  }

  /**
    The return shape of the proxied method, which decides the entry point:
    `Void` and `Plain` go to InterceptSynchronous, `Task` to InterceptAsynchronous,
    `TaskOf` (a `Task<TResult>`) to InterceptAsynchronous<TResult>.
   */
  datatype ReturnKind = Void | Plain | Task | TaskOf {
    predicate IsAsync() {
      Task? || TaskOf?
    }
  }

  /** A value passed to or returned from a method; its JSON rendering is not modelled. */
  datatype Value = Null | Object(content: string)

  /** An exception: one raised by application code, or the runtime's null dereference. */
  datatype Error = Raised(message: string) | NullReference

  /**
    How a call ends, as its caller sees it: it returns a value (for the asynchronous
    shapes, a task that completes with that value), it throws synchronously, or it
    returns a task that faults when awaited.
   */
  datatype Outcome = Returned(value: Value) | Threw(error: Error) | Faulted(error: Error)

  /** Only task-returning methods can hand back a faulted task. */
  predicate Fits(kind: ReturnKind, o: Outcome) {
    o.Faulted? ==> kind.IsAsync()
  }

  /** The error a caller meets when it awaits (or simply calls) the method, if any. */
  function ErrorOf(o: Outcome): (e: Option<Error>)
    ensures e.None? <==> o.Returned?
    ensures e.Some? ==> e.value == o.error
  {
    match o
    case Returned(_) => None
    case Threw(err) => Some(err)
    case Faulted(err) => Some(err)
  }

  /** One proxied call: method name, declaring class, attribute, return shape, arguments. */
  datatype Invocation = Invocation(
    methodName: string,
    className: string,
    attribute: Option<LogMessage>,
    kind: ReturnKind,
    args: seq<Value>)
}

=== FILE: log_events.dfy ===
/**
  The lines the interceptor writes, as abstract events: one constructor per line shape
  of the interceptor, with the text formatting, JSON rendering and assembly name left out.
 */
module LogEvents {
  import opened Optional
  import opened Invocations

  /** The two banners that open an intercepted call. */
  datatype Banner = SyncBanner | ResultBanner

  datatype LogEvent =
    | Intercepting(banner: Banner, methodName: string, tagged: Option<Tags>)
    | ClassName(className: string)
    | CustomMessage(message: string, tags: Tags)
    | RequestHeader(tags: Tags)
    | RequestJson(args: seq<Value>)
    | ResponseHeader(tagged: Option<Tags>)
    | ResponseJson(value: Value)
    | ExecutedSuccessfully(methodName: string, tagged: Option<Tags>)
    | TaskCompleted
    | ExceptionIn(isAsync: bool, methodName: string, error: Error, tags: Tags)
    | ExecutedIn(methodName: string, elapsed: nat, tagged: Option<Tags>)
    | Summary

  predicate IsSummary(e: LogEvent) { e.Summary? }

  predicate IsException(e: LogEvent) { e.ExceptionIn? }

  /** The lines that report a successful completion of the real call. */
  predicate IsSuccess(e: LogEvent) { e.ExecutedSuccessfully? || e.TaskCompleted? }

  predicate IsResponse(e: LogEvent) { e.ResponseHeader? || e.ResponseJson? }

  predicate IsRequest(e: LogEvent) { e.RequestHeader? || e.RequestJson? }

  predicate IsCustom(e: LogEvent) { e.CustomMessage? }

  /** Number of events in `s` that satisfy `p`. */
  function Count(s: seq<LogEvent>, p: LogEvent -> bool): nat
  {
    if s == [] then 0 else (if p(s[0]) then 1 else 0) + Count(s[1..], p)
  }

  lemma {:induction false} CountAppend(a: seq<LogEvent>, b: seq<LogEvent>, p: LogEvent -> bool)
    ensures Count(a + b, p) == Count(a, p) + Count(b, p)
  {
    if a == [] {
      assert a + b == b;
    } else {
      assert (a + b)[1..] == a[1..] + b;
      CountAppend(a[1..], b, p);
    }
  }

  /** 1 when position `k` of `s` exists and satisfies `p`, else 0. */
  function Hit(s: seq<LogEvent>, k: nat, p: LogEvent -> bool): nat
  {
    if k < |s| && p(s[k]) then 1 else 0
  }

  /** The count of a short run, position by position. */
  lemma {:induction false} CountShort(s: seq<LogEvent>, p: LogEvent -> bool)
    requires |s| <= 4
    ensures Count(s, p) == Hit(s, 0, p) + Hit(s, 1, p) + Hit(s, 2, p) + Hit(s, 3, p)
  {
    if s != [] {
      CountShort(s[1..], p);
      forall k: nat | k < 3 ensures Hit(s[1..], k, p) == Hit(s, k + 1, p) {
        if k < |s[1..]| {
          assert s[1..][k] == s[k + 1];
        }
      }
    }
  }

  /**
    The fixed order of one call's own lines: announcement (banners, class name), custom
    message, request, then the result or exception lines, then the timing block.
   */
  datatype Stage = Announce | Custom | Request | Result | Finally

  function Rank(st: Stage): nat
  {
    match st
    case Announce => 0
    case Custom => 1
    case Request => 2
    case Result => 3
    case Finally => 4
  }

  /** The stage an event belongs to among the lines written before the real call. */
  function OpeningStage(e: LogEvent): Stage
  {
    match e
    case Intercepting(_, _, _) => Announce
    case ClassName(_) => Announce
    case CustomMessage(_, _) => Custom
    case RequestHeader(_) => Request
    case RequestJson(_) => Request
    case ExecutedIn(_, _, _) => Finally
    case Summary => Finally
    case _ => Result
  }

  /** The stage an event belongs to among the lines written after the real call. */
  function ClosingStage(e: LogEvent): Stage
  {
    match e
    case ClassName(_) => Finally
    case ExecutedIn(_, _, _) => Finally
    case Summary => Finally
    case _ => OpeningStage(e)
  }

  /** Stages never go backwards along `s`. */
  predicate Ordered(s: seq<LogEvent>, stage: LogEvent -> Stage)
  {
    forall i, j :: 0 <= i < j < |s| ==> Rank(stage(s[i])) <= Rank(stage(s[j]))
  }

  /** Every event of `s` sits at stage `st`. */
  predicate Uniform(s: seq<LogEvent>, stage: LogEvent -> Stage, st: Stage)
  {
    forall i :: 0 <= i < |s| ==> stage(s[i]) == st
  }

  /** Every event of `s` sits at a stage whose rank lies in [lo, hi]. */
  predicate Within(s: seq<LogEvent>, stage: LogEvent -> Stage, lo: nat, hi: nat)
  {
    forall i :: 0 <= i < |s| ==> lo <= Rank(stage(s[i])) <= hi
  }

  /** `e` occurs in `s` at a position before every event that satisfies `p`. */
  predicate Before(s: seq<LogEvent>, e: LogEvent, p: LogEvent -> bool)
  {
    exists j :: 0 <= j < |s| && s[j] == e && forall k :: 0 <= k < |s| && p(s[k]) ==> j < k
  }

  /** Concatenating two ordered runs, the first entirely at or below the second, keeps order. */
  lemma OrderedAppend(a: seq<LogEvent>, b: seq<LogEvent>, stage: LogEvent -> Stage, mid: nat)
    requires Ordered(a, stage) && Ordered(b, stage)
    requires forall i :: 0 <= i < |a| ==> Rank(stage(a[i])) <= mid
    requires forall i :: 0 <= i < |b| ==> mid <= Rank(stage(b[i]))
    ensures Ordered(a + b, stage)
  {
    forall i, j | 0 <= i < j < |a + b|
      ensures Rank(stage((a + b)[i])) <= Rank(stage((a + b)[j]))
    {
      if j < |a| {
        assert (a + b)[i] == a[i] && (a + b)[j] == a[j];
      } else if i < |a| {
        assert (a + b)[i] == a[i] && (a + b)[j] == b[j - |a|];
      } else {
        assert (a + b)[i] == b[i - |a|] && (a + b)[j] == b[j - |a|];
      }
    }
  }
}

=== FILE: weather_scenario.dfy ===
/**
  The application's own wiring as a test scenario: the service layer and the forecast
  store are both proxied, each with its own interceptor, and the service layer's methods
  call the proxied store. Domain values are placeholders; only the shape of the calls,
  the attributes and the return types come from the application.
 */
module WeatherScenario {
  import opened Optional
  import opened Invocations
  import opened LogEvents
  import opened Interceptor
  import opened CallTree

  const Forecasts := Object("forecasts")
  const Summarised := Object("forecasts with summaries")

  /** The store's attribute: message, then application "WeatherForecast" and environment "CTE". */
  function StoreAttribute(message: string): Option<LogMessage>
  {
    Some(LogMessage(message, "WeatherForecast", "CTE"))
  }

  /** The service layer's attribute gives a message only; the two tags stay empty. */
  function ServiceAttribute(message: string): Option<LogMessage>
  {
    Some(LogMessage(message, "", ""))
  }

  function GenerateForecasts(elapsed: nat): Call
  {
    Call(Invocation("GenerateForecasts", "WeatherForecast", StoreAttribute("Generating weather forecasts ."), Plain, []),
         elapsed, [], Returned(Forecasts))
  }

  function AssignSummaries(elapsed: nat): Call
  {
    Call(Invocation("AssignSummaries", "WeatherForecast", StoreAttribute("Generating Assign Summaries weather forecasts."), Plain, [Forecasts]),
         elapsed, [], Returned(Summarised))
  }

  /** `GetWeatherForecasts`: generate, then assign summaries, both through the proxied store. */
  function GetWeatherForecasts(t0: nat, t1: nat, t2: nat): Call
  {
    Call(Invocation("GetWeatherForecasts", "ServiceLayer", ServiceAttribute("Fetching weather forecasts."), Plain, []),
         t0, [GenerateForecasts(t1), AssignSummaries(t2)], Returned(Summarised))
  }

  /** `GenerateForecastsAsync`, here with a task that faults with `failure`. */
  function GenerateForecastsAsyncFaulting(elapsed: nat, failure: Error): Call
  {
    Call(Invocation("GenerateForecastsAsync", "WeatherForecast", StoreAttribute("Generating forecasts asynchronously."), TaskOf, []),
         elapsed, [], Faulted(failure))
  }

  function AssignSummariesAsync(elapsed: nat): Call
  {
    Call(Invocation("AssignSummariesAsync", "WeatherForecast", StoreAttribute("Generating Assign Summaries asynchronously."), TaskOf, [Forecasts]),
         elapsed, [], Returned(Summarised))
  }

  /** `GetWeatherForecastsAsync`, awaiting the two asynchronous store calls in turn. */
  function GetWeatherForecastsAsync(t0: nat, t1: nat, t2: nat, failure: Error): Call
  {
    Call(Invocation("GetWeatherForecastsAsync", "ServiceLayer", ServiceAttribute("Fetching weather forecasts asynchronously."), TaskOf, []),
         t0, [GenerateForecastsAsyncFaulting(t1, failure), AssignSummariesAsync(t2)], Returned(Summarised))
  }

  /**
    One synchronous request: the proxied service call, with its two nested store calls,
    ends at depth 0 with the store's summarised forecasts, writes exactly one summary line,
    the very last one and the outer call's own, and no exception line.
   */
  lemma SynchronousRequest(t0: nat, t1: nat, t2: nat)
    ensures var r := Run(GetWeatherForecasts(t0, t1, t2), 0);
      && r.depth == 0
      && r.outcome == Returned(Summarised)
      && Count(r.trace, IsSummary) == 1
      && Count(r.trace, IsException) == 0
      && r.trace[0] == Intercepting(SyncBanner, "GetWeatherForecasts", None)
      && r.trace[|r.trace| - 1] == Summary
  {
    var c := GetWeatherForecasts(t0, t1, t2);
    assert WellFormed(c) && Annotated(c) by {
      assert WellFormed(c.nested[0]) && WellFormed(c.nested[1]);
      assert Annotated(c.nested[0]) && Annotated(c.nested[1]);
    }
    assert Direct(c) == Returned(Summarised) by {
      assert Direct(c.nested[0]) == Returned(Forecasts);
      assert Direct(c.nested[1]) == Returned(Summarised);
      assert DirectFrom(c, 1) == DirectFrom(c, 2);
    }
    DepthBalance(c, 0);
    RootSummary(c, 0);
    Transparency(c, 0);
    ExceptionLinePerFailure(c, 0);
    var body := Proceed(c, 0, 1);
    assert body.depth == 1 by {
      ProceedBalance(c, 0, 1);
    }
    var f := SyncFrame(c.inv, c.inv.attribute.value, c.elapsed, body);
    assert Run(c, 0).trace == f.opening + body.trace + f.closing;
    assert f.opening[0] == Intercepting(SyncBanner, "GetWeatherForecasts", None);
    assert f.closing[|f.closing| - 1] == Summary;
  }

  /**
    A failing asynchronous request: the store's first task faults, so the service layer's
    task faults with the same error and the caller meets that error unchanged; the
    summaries are never assigned, so the service call's own lines enclose those of the
    first store call alone; and each of the two interceptors writes one exception line.
   */
  lemma FailingAsynchronousRequest(t0: nat, t1: nat, t2: nat, failure: Error)
    ensures var c := GetWeatherForecastsAsync(t0, t1, t2, failure);
      var r := Run(c, 0);
      var f := Intercept(c.inv, c.elapsed, 0, Proceed(c, 0, 1));
      && r.depth == 0
      && r.outcome == Threw(failure)
      && r.trace == f.opening + Run(GenerateForecastsAsyncFaulting(t1, failure), 1).trace + f.closing
      && Count(r.trace, IsSummary) == 1
      && Count(r.trace, IsException) == 2
  {
    var c := GetWeatherForecastsAsync(t0, t1, t2, failure);
    assert WellFormed(c) && Annotated(c) by {
      assert WellFormed(c.nested[0]) && WellFormed(c.nested[1]);
      assert Annotated(c.nested[0]) && Annotated(c.nested[1]);
    }
    assert Direct(c.nested[0]) == Faulted(failure);
    assert Direct(c) == Faulted(failure);
    DepthBalance(c, 0);
    RootSummary(c, 0);
    Transparency(c, 0);
    assert Count(Run(c, 0).trace, IsException) == 2 by {
      ExceptionLinePerFailure(c, 0);
      assert FailingCalls(c.nested[0]) == 1;
      assert FailingFrom(c, 0) == 1;
    }
    assert Proceed(c, 0, 1).trace == Run(c.nested[0], 1).trace by {
      Transparency(c.nested[0], 1);
    }
  }

  /** A hypothetical store method returning a `Task<TResult>`, without the attribute. */
  function CountForecastsAsync(): Call
  {
    Call(Invocation("CountForecastsAsync", "WeatherForecast", None, TaskOf, [Forecasts]), 0, [], Returned(Object("5")))
  }

  /**
    A store method returning `Task<TResult>` that lacks the attribute (every method of the
    application carries one; the interceptor nevertheless accepts such a method), called
    at the start of a thread's life: the caller gets a null-reference exception, nothing
    is written, the depth stays at 1, and the service request served next on the same
    thread writes no summary line.
   */
  lemma UnannotatedCallSilencesNextRequest(t0: nat, t1: nat, t2: nat)
    ensures var bare := CountForecastsAsync();
      && Run(bare, 0).outcome == Threw(NullReference)
      && Run(bare, 0).depth == 1
      && Run(bare, 0).trace == []
      && Count(Serve([bare, GetWeatherForecasts(t0, t1, t2)], 0).1, IsSummary) == 0
  {
    var bare := CountForecastsAsync();
    assert Run(bare, 0) == Step(1, [], Threw(NullReference)) by {
      var body := Proceed(bare, 0, 1);
      assert Intercept(bare.inv, bare.elapsed, 0, body) == Frame([], false, [], 1, Threw(NullReference));
    }
    var next := GetWeatherForecasts(t0, t1, t2);
    var calls := [bare, next];
    assert WellFormed(next) by {
      assert WellFormed(next.nested[0]) && WellFormed(next.nested[1]);
    }
    assert calls[1..] == [next];
    LeakSilencesSummaries(calls);
  }
}
